=== FILE: README.md ===
# Touch-trace engine of the touch widget, in Dafny

This project models the logic of the touch widget, a JupyterLab plugin that
shows live multi-finger touch data streamed from a touch sensor's backend service. It has two parts.

- **The touch component** (`src/touch_component.tsx`). It keeps ten object
  slots. Each slot has a status (`"*"` idle, `"+"` active, `"-"` closing), an
  x/y trace and a seven-entry statistics array. `captureTraces` applies one
  decoded position report to all ten slots, closing the trajectories of
  objects that disappeared and recording their x range, y range and
  linearity. Around this sit the report-event handler and the server-sent
  event stream's lifecycle (`addEvent`, `removeEvent`, `errorHandler`,
  `setReport`, `newPlot`), plus the error and run guards of the render loop
  (`animatePlot`).
- **The landing page** (`src/widget/Landing.tsx`). It sizes the plot from the
  sensor's dimensions, handles the rotation toggle and switches the view type
  and run flag. Stream errors drive the view-type switch.

The landing page renders a `./LivePlot` component (src/widget/Landing.tsx:28,
378) whose file is not part of this model. The touch component is imported
only by the older pages src/widget_landing.tsx:30 and src/widget_mui.tsx:23.
That the two parts form one widget is inferred from their matching props
(`run`, `viewType`, `clearPlot`, `resetViewType`).

Modules:

- `Optional` (`optional.dfy`): `Option`, standing in for JavaScript `undefined`.
- `TraceStats` (`trace_stats.dfy`): the statistics record and the running
  min/max updates. It also gives reference definitions (`SeqMin`, `SeqMax`)
  that the incremental updates are proved against.
- `Traces` (`traces.dfy`): the slot state machine, `captureTraces` and
  `clearPlot`, the slot invariant `SlotOk`, and the per-frame theorems.
- `Stream` (`stream.dfy`): the component's module-level state as one
  `Engine` value, plus event routing, the connection lifecycle, plot start-up
  and the render-tick guard.
- `Scenarios` (`scenarios.dfy`): concrete multi-frame runs.
- `Landing` (`landing.dfy`): the landing page's sizing, rotation, view type
  and clear trigger.

Modelling choices:

- Coordinates are unbounded integers.
- Statuses map as `Idle` = `"*"`, `Active` = `"+"` and `Closing` = `"-"`.
- Each `Option` entry of `Stats` is one cell of `traceStats[i]`; `None` means
  the cell is undefined.
- The linearity of a closed trace is computed in floating point. The model
  takes it as a caller-supplied function `lin` and records `lin(xs, ys)`
  exactly where the source stores `computeLinearity(i, length)`.
- Events come in already decoded as `Message` values.
- The backend's answer to the configuration request is an `Outcome`
  parameter.
- Whether a render interval has elapsed is a `due` parameter.
- `EventSource` is an abstract handle carrying its `readyState`.
- `connections` counts the streams opened so far, so "opens exactly one
  connection" can be stated.

Behaviour of the code worth knowing when reading the model:

- `computeLinearity` has no guard for degenerate traces. When every x is
  equal it returns 0, only because every comparison with NaN fails (see
  `ZeroWhenVertical` below).
- Malformed event data makes `JSON.parse` throw inside the handler. No state
  changes, and that is what the model states for `Unparsable`.
- The error handler clears the handle only when the stream is not already
  CLOSED (see Findings).

## Model

| member | source | states |
|---|---|---|
| `TraceStats.SeqMin` | src/touch_component.tsx:101-106 | the x (or y) minimum of a non-empty trace is one of its samples and no sample lies below it |
| `TraceStats.SeqMax` | src/touch_component.tsx:107-112 | the maximum of a non-empty trace is one of its samples and no sample lies above it |
| `TraceStats.Track` | src/touch_component.tsx:101-124 | after one sample, entries 0..3 are defined and enclose the sample; entries 4..6 are untouched |
| `TraceStats.TrackExtendsBox` | src/touch_component.tsx:101-124 | if entries 0..3 were the extremes of the trace, one incremental update makes them the extremes of the trace extended by the sample |
| `TraceStats.TrackStartsBox` | src/touch_component.tsx:91-124 | from undefined entries (a fresh `Array(7)`), one sample gives the extremes of the one-point trace |
| `TraceStats.SeqMinAppend` | src/touch_component.tsx:101-106 | the minimum of a trace extended by one sample is the smaller of the old minimum and the sample |
| `TraceStats.SeqMaxAppend` | src/touch_component.tsx:107-112 | the maximum of a trace extended by one sample is the larger of the old maximum and the sample |
| `TraceStats.Span` | src/touch_component.tsx:130-135 | a range is written only when both extremes are defined, and is then non-negative when they are ordered; otherwise the entry keeps its previous value |
| `Traces.ClearPlot` | src/touch_component.tsx:327-334 | all ten slots are idle, with empty traces and all seven statistics undefined |
| `Traces.ClearPlotOk` | src/touch_component.tsx:327-334 | the cleared slots satisfy the slot invariant, whatever state came before |
| `Traces.FeedShape` | src/touch_component.tsx:91-124 | one sample makes the slot active; an idle slot restarts its trace at the sample with ranges and linearity undefined; any other slot appends the sample and keeps them; the extremes stay those of the trace |
| `Traces.FeedAllTrace` | src/touch_component.tsx:87-99 | a slot fed its samples of a frame is active and its trace is its base (empty if it was idle) followed by exactly those samples' coordinates, so it grows by one per occurrence |
| `Traces.FeedAllStats` | src/touch_component.tsx:91-124 | over a run of samples the running extremes equal the trace's extremes; ranges and linearity are cleared by a restart and kept by a continuation |
| `Traces.ApplySamplesPerSlot` | src/touch_component.tsx:87-125 | after the sample loop, slot i is what feeding it object i's samples, in stream order, gives; the other objects' samples do not affect it |
| `Traces.SamplesForPresent` | src/touch_component.tsx:87-89 | an object has samples in a frame exactly when its index occurs in it, and each of those samples carries that index |
| `Traces.CaptureTracesSlot` | src/touch_component.tsx:75-138 | a frame applied to slot i means: provisionally close it if active, feed it object i's samples, then close it if it is still closing |
| `Traces.CaptureTracesStatus` | src/touch_component.tsx:81-138 | after a frame a slot is active exactly when its index is in the frame; no slot is closing; a slot active before and absent now is idle; an idle slot absent from the frame is unchanged |
| `Traces.CaptureTracesTraces` | src/touch_component.tsx:87-99 | for an object in the frame, the trace is reset to its samples if the slot was idle and extended by them otherwise; the length grows by the number of occurrences; ranges and linearity are cleared on reset and kept otherwise |
| `Traces.CaptureTracesCloses` | src/touch_component.tsx:127-137 | a slot that was active and is absent becomes idle with trace and extremes kept; x range is max x minus min x, y range is max y minus min y, both non-negative; linearity is that of the finished trace |
| `Traces.CaptureTracesNoPos` | src/touch_component.tsx:76-85 | a report without `pos` acts as the empty frame: every slot ends idle and idle slots are unchanged, so nothing opens and every active slot closes |
| `Traces.SlotStepOk` | src/touch_component.tsx:81-138 | one slot through one frame keeps the slot invariant: the box matches the trace, no slot is left closing, and ranges are set exactly on closed trajectories |
| `Traces.CaptureTracesKeepsOk` | src/touch_component.tsx:75-138 | every frame keeps the slot invariant on all ten slots |
| `Stream.EventHandler` | src/touch_component.tsx:141-152 | an unparsable, falsy, report-less or non-position event changes nothing; a position event sets `eventData` to its payload; slots change only in the trace view and only when the payload is present, and then they are `captureTraces` of the payload; nothing else changes |
| `Stream.EventHandlerKeepsOk` | src/touch_component.tsx:141-152 | the handler keeps the slot invariant for every message |
| `Stream.AddEvent` | src/touch_component.tsx:168-176 | with a handle present nothing happens; otherwise the error flag is cleared and exactly one stream is opened, nothing else changing |
| `Stream.RemoveEventAsWritten` | src/touch_component.tsx:154-160 | with no handle, or a handle whose ready state is CLOSED, nothing happens; otherwise the handle is cleared |
| `Stream.ErrorHandlerAsWritten` | src/touch_component.tsx:162-166 | the error flag is set; with no handle nothing else changes; a handle is cleared unless its ready state is CLOSED, in which case it stays |
| `Stream.RemoveEvent` | src/touch_component.tsx:154-160 | corrected: afterwards there is no handle; with no handle nothing happens; nothing else changes |
| `Stream.ErrorHandler` | src/touch_component.tsx:162-166 | corrected: the error flag is set and the handle is gone; nothing else changes |
| `Stream.SetReport` | src/touch_component.tsx:178-194 | the posted body enables the second argument's kinds and disables the first's at 120 reports per second; the outcome is the backend's answer; a rejection changes nothing; an acceptance leaves a stream open, changes nothing when one was already open, and otherwise opens exactly one and clears the error flag; only the stream fields ever change |
| `Stream.NewPlotOutcome` | src/touch_component.tsx:382-421 | an empty view only records the view, posts nothing and hides the plot; any other view leaves exactly the `clearPlot` slots (on both the accepted and the rejected path) and posts enable [17] (touch), disable [18, 19] (delta, raw) at 120 per second; a rejected configuration asks for a view reset and leaves the stream, connection count, error flag and `eventData` as they were; an accepted one starts animating with a stream open and no stale `eventData`, and with a stream already open keeps it, the error flag and the connection count; `run` and every other field are never touched |
| `Stream.ReportDuringPlotStart` | src/touch_component.tsx:382-421 | with an earlier stream still open, a trace-view position report handled while `newPlot` awaits the answer is captured into the freshly cleared slots; the accepted answer opens no new stream, and the captured slots survive the start of the render loop |
| `Stream.AnimatePlot` | src/touch_component.tsx:336-363 | the tick resets the view and does not reschedule exactly when the error flag is set; when paused it only reschedules; it renders exactly when running, due and a report has arrived, and then the render carries that report's `pos` (empty if absent) |
| `Stream.OpenCloseIdempotent` | src/touch_component.tsx:154-176 | opening twice is opening once; closing twice is closing once, both as written and corrected |
| `Stream.StaleHandleAfterFailedConnection` | src/touch_component.tsx:154-176 | as written: an error on a stream already CLOSED leaves the handle; any later plot start keeps the error flag and opens nothing; the next tick resets the view again |
| `Stream.ErrorThenReopen` | src/touch_component.tsx:154-176 | corrected: after any stream error the tick resets the view; a later accepted start for a view opens exactly one new stream with the error flag clear, and the loop keeps running |
| `Scenarios.HorizontalStroke` | src/touch_component.tsx:75-138 | object 0 at (0,0), then (10,0), then absent: the trace is [0,10]/[0,0], then the slot closes with x range 10 and y range 0 |
| `Scenarios.ReopenStartsFresh` | src/touch_component.tsx:75-138 | object 2 present, absent, present: it closes after the gap with both ranges 0 (and linearity 0 under `ZeroWhenVertical`), and the third frame starts a new one-point trace without ranges |
| `Scenarios.PointCloses` | src/touch_component.tsx:127-137 | a one-point trajectory closes with both ranges 0, and with linearity 0 when `lin` behaves as `computeLinearity` does on a trace of one x value |
| `Scenarios.FirstReport` | src/touch_component.tsx:141-152 | a first report with object 0 at (10,20) gives a one-point trace with no ranges in the trace view, and a render tick carrying exactly that `pos` in the position view |
| `Landing.PlotLengths` | src/widget/Landing.tsx:315-332 | the initial plot width is the x length and the total row width is the plot width plus 952 |
| `Landing.PlotLengthsAspect` | src/widget/Landing.tsx:315-321 | if ⌊500·maxX/maxY⌋ ≤ 500, the height is 500 and the width is that floor; otherwise the width is 500 and the height is ⌊500·maxY/maxX⌋; both are within 0..500 and one is 500; the longer sensor side gets the full 500 |
| `Landing.Resize` | src/widget/Landing.tsx:315-335 | the page is initialized with the computed lengths and an unrotated transform; nothing else (including the toggle's angle) changes |
| `Landing.HandleAngleToggle` | src/widget/Landing.tsx:85-152 | the angle is always recorded; x and y lengths never change; angles 0 and 180 take the x length as plot width, 90 and 270 the y length; all four set total width to plot width plus 952 and rotate by that angle, translating by minus the x length at 180 and 270 and by minus the y length at 90 and 180; any other value, null included, changes nothing else; only the angle, rotation and lengths ever change |
| `Landing.ResizeLayoutOk` | src/widget/Landing.tsx:315-335 | sizing establishes the layout invariant: a quarter-turn transform, a plot width matching the turn, total width equal to plot width plus 952, and translation offsets that bring the turned plot back into its box |
| `Landing.AngleToggleKeepsLayout` | src/widget/Landing.tsx:85-152 | every toggle, including one to a value outside the four angles, keeps the layout invariant |
| `Landing.ResetViewType` | src/widget/Landing.tsx:172-175 | the view type becomes empty and run becomes false; nothing else changes |
| `Landing.ChangeViewType` | src/widget/Landing.tsx:177-185 | selecting the current view does nothing; another value is stored; a non-empty one also shows the plot and starts running; an empty one leaves run and showPlot alone |
| `Landing.ViewTypeSelection` | src/widget/Landing.tsx:172-185 | selecting the same view twice is selecting it once; resetting twice is resetting once; after a reset, selecting any view restarts the plot |
| `Landing.TriggerClearPlot` | src/widget/Landing.tsx:191-193 | the clear flag flips and nothing else changes |
| `Landing.TriggerClearPlotTwice` | src/widget/Landing.tsx:191-193 | two triggers restore the page state |

## Left out

- `computeLinearity` (src/touch_component.tsx:43-73) is floating point, with `Math.sqrt`, `Math.round` and an unguarded division. When every x is equal, or the trace has one point, the fitted slope is 0/0 = NaN; every `distance > linearity` test then fails and the function returns 0. The model takes it as a caller-supplied function `lin` and states where its value is stored; `Traces.ZeroWhenVertical` states that degenerate case as a property a caller's `lin` may have.
- `JSON.parse`, `EventSource`, `requestAPI`, `requestAnimationFrame`, `cancelAnimationFrame`, `performance.now` and `Date.now` are host runtime and I/O. Events are decoded `Message` values, the backend's answer is an `Outcome`, the elapsed-interval test is `due`, and the stream is an abstract handle.
- The 60 fps throttle arithmetic and the FPS console counter (src/touch_component.tsx:348-371) are timing diagnostics.
- Plotly figure state, `renderPlot`, `generateMarkers`, `generateTraces` and the statistics tables handed to `updateStats` (src/touch_component.tsx:249-325) are presentation. A render tick carries `pos` as `computePlot` leaves it; in the trace view the drawing itself reads the slot traces and statistics, which the model keeps in the engine.
- The React effect wiring is not composed into one system. This covers the `run` prop copy, the `viewType` effect calling `newPlot` and `stopAnimation`, the unmount cleanup calling `removeEvent`, and the `clearPlot` prop effect skipping its first run. Each operation is modelled separately.
- `Traces.ClearPlot`: the source's fresh trace is `Array(1)`, a one-element array holding `undefined`. The model uses the empty trace. Only Plotly reads that element, and the first sample of a trajectory replaces it.
- `Stream.EventHandler`: a position report without a payload makes `captureTraces` throw a TypeError on its first line. The model keeps the slots unchanged, which is the state the exception leaves.
- `Traces.CaptureTraces`: object indices outside 0..9 make the source throw or write out of bounds. The model requires indices in range instead of modelling that. A repeated index in one frame is modelled, and appends twice.
- `Stream.EventHandler`: for the same reason it requires in-range indices, but only in the trace view, the one place the handler reads them.
- `Stream.NewPlot`: it is `BeginPlot` followed directly by `FinishPlot`, the run in which no event arrives while `newPlot` awaits `setReport` (src/touch_component.tsx:413-414). Other interleavings are not enumerated; `Stream.ReportDuringPlotStart` covers the one where a report from a still-open earlier stream arrives in between. `newPlot` never calls `removeEvent`, so that stream stays open.
- `Landing.PlotLengths`: the model requires positive `maxX` and `maxY`. The caller stores the dimensions only when both are non-zero (src/widget/TouchComponent.tsx:56), but marks the page initialized either way (line 64), so the page can also receive undefined dimensions and compute NaN lengths; that case and negative dimensions are not modelled. `Math.floor` of the floating quotient equals integer division while 500·maxX and 500·maxY stay below 2^53.
- `Landing.HandleAngleToggle`: it requires the lengths to be set, because the toggle is rendered only once the page is initialized. The rotation's CSS string is a structured `Rotate(degrees, dx, dy)`.
- The flip checkboxes (`handleFlipCheckboxClick`), tables, tooltips and menus of src/widget/Landing.tsx are presentation.
- src/widget_landing.tsx and src/widget_mui.tsx are older pages. The sizing of src/widget_landing.tsx:317-337 matches `Landing.PlotLengths`; src/widget_mui.tsx:64-67 has neither the 500-pixel cap nor the added margins, and is not modelled.
- src/widget_container.tsx, src/widget/TouchComponent.tsx, src/index.ts, src/widget/TouchWidget.tsx, src/icons.ts and src/widget/local_exports.tsx are service lookup, registration and theming. src/widget/constants.tsx only supplies the layout constants used in `Landing`.

## Findings

| source | as written | input that shows it | evidently intended | confidence | as-written member | corrected member |
|---|---|---|---|---|---|---|
| src/touch_component.tsx:154-166 | `removeEvent` closes and clears the handle only when `readyState !== SSE_CLOSED`, and `errorHandler` relies on it | the backend answers the stream request with an HTTP error: the host fails the connection, sets `readyState` to CLOSED, then fires `error`; the handle stays, so every later `addEvent` returns early without clearing `eventError`, and each `animatePlot` tick resets the view again | an error clears the handle whatever the ready state, so the next accepted `setReport` reconnects | medium; not executed | `Stream.StaleHandleAfterFailedConnection` | `Stream.ErrorThenReopen` |

=== FILE: landing.dfy ===
/** The landing page's own state: plot sizing from the sensor's dimensions,
    the rotation toggle, the view-type selector, the run flag and the
    clear-traces trigger. */
module Landing {
  import opened Optional

  /** Layout constants, in pixels. */
  const ContentHeight := 500
  const TableWidth := 160
  const TableSpacing := 2

  /** Everything beside the plot on one row: five statistics tables, their
      borders, the stack spacing between them (in 8-pixel units) and the
      padding: 160 * 5 + 5 * 8 + 2 * 4 * 8 + 24 * 2 = 952. */
  const SideWidth := TableWidth * 5 + 5 * 8 + TableSpacing * 4 * 8 + 24 * 2

  function TotalWidth(plotWidth: int): int {
    plotWidth + SideWidth
  }

  datatype Lengths = Lengths(plotXLength: int, plotYLength: int, plotWidth: int, totalWidth: int)

  /** The plot's CSS transform: none yet, or `rotate(degrees)` followed by
      `translate(dx, dy)`. */
  datatype Rotation = NoTransform | Rotate(degrees: int, dx: int, dy: int)

  /** The page state. `angle` is the toggle's value, which the toggle group
      reports as null (`None`) when the selected button is clicked again. */
  datatype View = View(
    initialized: bool,
    run: bool,
    lengths: Option<Lengths>,
    rotation: Rotation,
    angle: Option<int>,
    viewType: string,
    showPlot: bool,
    clearPlot: bool)

  /** The sizing effect's lengths: the longer side of the plot is 500 pixels
      and the shorter one is 500 scaled by the sensor's aspect ratio, rounded
      down; the plot starts unrotated. */
  function PlotLengths(maxX: int, maxY: int): (r: Lengths)
    requires maxX > 0 && maxY > 0
    ensures r.plotWidth == r.plotXLength && r.totalWidth == r.plotWidth + 952
  {
    var width := (ContentHeight * maxX) / maxY;
    if width > ContentHeight then
      Lengths(ContentHeight, (ContentHeight * maxY) / maxX, ContentHeight, TotalWidth(ContentHeight))
    else
      Lengths(width, ContentHeight, width, TotalWidth(width))
  }

  lemma FloorDiv(a: int, b: int, q: int)
    requires a >= 0 && b > 0 && q == a / b
    ensures 0 <= q && q * b <= a < (q + 1) * b
  {
  }

  lemma MulMono(a: int, b: int, c: int)
    requires a <= b && c >= 0
    ensures a * c <= b * c
  {
    assert b * c - a * c == (b - a) * c;
  }

  /** Dividing both sides of `a * c < b * c` by a positive `c`. */
  lemma MulCancel(a: int, b: int, c: int)
    requires c > 0 && a * c < b * c
    ensures a < b
  {
    if a >= b {
      MulMono(b, a, c);
    }
  }

  /** When the scaled width overflows, the sensor is wider than tall and the
      scaled height stays below 500. */
  lemma WideSensor(maxX: int, maxY: int)
    requires maxX > 0 && maxY > 0 && ContentHeight * maxX / maxY > ContentHeight
    ensures maxY < maxX
    ensures var h := ContentHeight * maxY / maxX;
      0 <= h < ContentHeight && h * maxX <= ContentHeight * maxY < (h + 1) * maxX
  {
    var w := ContentHeight * maxX / maxY;
    var h := ContentHeight * maxY / maxX;
    FloorDiv(ContentHeight * maxX, maxY, w);
    FloorDiv(ContentHeight * maxY, maxX, h);
    MulMono(ContentHeight + 1, w, maxY);
    MulCancel(maxY * ContentHeight, maxX * ContentHeight, ContentHeight);
    MulMono(maxY, maxX, ContentHeight);
    MulCancel(h, ContentHeight, maxX);
  }

  /** A sensor no wider than tall scales to a width of at most 500. */
  lemma TallSensor(maxX: int, maxY: int)
    requires 0 < maxX <= maxY
    ensures ContentHeight * maxX / maxY <= ContentHeight
  {
    var w := ContentHeight * maxX / maxY;
    FloorDiv(ContentHeight * maxX, maxY, w);
    MulMono(maxX, maxY, ContentHeight);
    MulCancel(w, ContentHeight + 1, maxY);
  }

  /** A sensor no taller than wide scales to a width of at least 500. */
  lemma FlatSensor(maxX: int, maxY: int)
    requires 0 < maxY <= maxX
    ensures ContentHeight * maxX / maxY >= ContentHeight
  {
    var w := ContentHeight * maxX / maxY;
    FloorDiv(ContentHeight * maxX, maxY, w);
    MulMono(maxY, maxX, ContentHeight);
    MulCancel(ContentHeight - 1, w, maxY);
  }

  /** Which side is 500 pixels, and that the other is the floor of 500 times
      the sensor's aspect ratio: when ⌊500·maxX/maxY⌋ ≤ 500 the height is 500
      and the width is that floor; otherwise the width is 500 and the height
      is ⌊500·maxY/maxX⌋. Both lie within 0..500 and one of them is 500. A
      sensor no wider than tall gets the full height, one no taller than wide
      the full width. */
  lemma PlotLengthsAspect(maxX: int, maxY: int)
    requires maxX > 0 && maxY > 0
    ensures var r := PlotLengths(maxX, maxY);
      && 0 <= r.plotXLength <= ContentHeight && 0 <= r.plotYLength <= ContentHeight
      && (r.plotXLength == ContentHeight || r.plotYLength == ContentHeight)
      && (ContentHeight * maxX / maxY <= ContentHeight ==>
            r.plotYLength == ContentHeight
            && r.plotXLength * maxY <= ContentHeight * maxX < (r.plotXLength + 1) * maxY)
      && (ContentHeight * maxX / maxY > ContentHeight ==>
            r.plotXLength == ContentHeight
            && r.plotYLength * maxX <= ContentHeight * maxY < (r.plotYLength + 1) * maxX)
      && (maxX <= maxY ==> r.plotYLength == ContentHeight)
      && (maxY <= maxX ==> r.plotXLength == ContentHeight)
  {
    var w := ContentHeight * maxX / maxY;
    FloorDiv(ContentHeight * maxX, maxY, w);
    if w > ContentHeight {
      WideSensor(maxX, maxY);
    }
    if maxX <= maxY {
      TallSensor(maxX, maxY);
    }
    if maxY <= maxX {
      FlatSensor(maxX, maxY);
    }
  }

  /** The sizing effect, run whenever the sensor's dimensions change. It
      resets the transform to an unrotated one but leaves `angle` as it was. */
  function Resize(v: View, maxX: int, maxY: int): (r: View)
    requires maxX > 0 && maxY > 0
    ensures r.initialized && r.lengths == Some(PlotLengths(maxX, maxY))
    ensures r.rotation == Rotate(0, 0, 0)
    ensures r.(initialized := v.initialized, lengths := v.lengths, rotation := v.rotation) == v
  {
    v.(lengths := Some(PlotLengths(maxX, maxY)), rotation := Rotate(0, 0, 0), initialized := true)
  }

  /** `handleAngleToggle`; the toggle is only on screen once the page is
      initialized, so the lengths are set. */
  function HandleAngleToggle(v: View, angle: Option<int>): (r: View)
    requires v.lengths.Some?
    ensures r.angle == angle && r.lengths.Some?
    ensures r.lengths.value.plotXLength == v.lengths.value.plotXLength
    ensures r.lengths.value.plotYLength == v.lengths.value.plotYLength
    ensures angle == Some(0) || angle == Some(180) ==>
      r.lengths.value.plotWidth == v.lengths.value.plotXLength
    ensures angle == Some(90) || angle == Some(270) ==>
      r.lengths.value.plotWidth == v.lengths.value.plotYLength
    ensures angle in {Some(0), Some(90), Some(180), Some(270)} ==>
      r.lengths.value.totalWidth == r.lengths.value.plotWidth + 952
      && r.rotation.Rotate? && Some(r.rotation.degrees) == angle
    ensures angle in {Some(0), Some(90), Some(180), Some(270)} ==>
      && r.rotation.dx == (if angle == Some(180) || angle == Some(270) then -v.lengths.value.plotXLength else 0)
      && r.rotation.dy == (if angle == Some(90) || angle == Some(180) then -v.lengths.value.plotYLength else 0)
    ensures angle !in {Some(0), Some(90), Some(180), Some(270)} ==> r == v.(angle := angle)
    ensures r.(angle := v.angle, rotation := v.rotation, lengths := v.lengths) == v
  {
    var l := v.lengths.value;
    var x := l.plotXLength;
    var y := l.plotYLength;
    var v1 :=
      match angle
      case Some(0) => v.(rotation := Rotate(0, 0, 0),
                         lengths := Some(l.(plotWidth := x, totalWidth := TotalWidth(x))))
      case Some(90) => v.(rotation := Rotate(90, 0, -y),
                          lengths := Some(l.(plotWidth := y, totalWidth := TotalWidth(y))))
      case Some(180) => v.(rotation := Rotate(180, -x, -y),
                           lengths := Some(l.(plotWidth := x, totalWidth := TotalWidth(x))))
      case Some(270) => v.(rotation := Rotate(270, -x, 0),
                           lengths := Some(l.(plotWidth := y, totalWidth := TotalWidth(y))))
      case _ => v;
    v1.(angle := angle)
  }

  /** The layout the page keeps once initialized: the transform is one of
      the four quarter turns; the plot's on-screen width is its y length
      after a quarter or three-quarter turn and its x length otherwise; the
      row is that width plus the tables beside it; and the translation moves
      the turned plot back into its box. */
  predicate LayoutOk(v: View) {
    && v.lengths.Some? && v.rotation.Rotate?
    && var l := v.lengths.value;
    var d := v.rotation.degrees;
    && d in {0, 90, 180, 270}
    && l.plotWidth == (if d == 90 || d == 270 then l.plotYLength else l.plotXLength)
    && l.totalWidth == l.plotWidth + 952
    && v.rotation.dx == (if d == 180 || d == 270 then -l.plotXLength else 0)
    && v.rotation.dy == (if d == 90 || d == 180 then -l.plotYLength else 0)
  }

  /** Sizing establishes the layout, whatever came before. */
  lemma ResizeLayoutOk(v: View, maxX: int, maxY: int)
    requires maxX > 0 && maxY > 0
    ensures LayoutOk(Resize(v, maxX, maxY))
  {
  }

  /** Every toggle, including a deselecting one, keeps the layout. */
  lemma AngleToggleKeepsLayout(v: View, angle: Option<int>)
    requires LayoutOk(v)
    ensures LayoutOk(HandleAngleToggle(v, angle))
  {
  }

  /** `resetViewType`: no view, not running; nothing else changes. */
  function ResetViewType(v: View): (r: View)
    ensures r.viewType == "" && !r.run
    ensures r.(viewType := v.viewType, run := v.run) == v
  {
    v.(viewType := "", run := false)
  }

  /** `changeViewType`: selecting the current view does nothing; any other
      value is stored, and a non-empty one also shows the plot and starts
      running. */
  function ChangeViewType(v: View, value: string): (r: View)
    ensures value == v.viewType ==> r == v
    ensures value != v.viewType ==> r.viewType == value
    ensures value != v.viewType && value != "" ==> r.showPlot && r.run
    ensures value == "" ==> r.run == v.run && r.showPlot == v.showPlot
    ensures r.(viewType := v.viewType, showPlot := v.showPlot, run := v.run) == v
  {
    if v.viewType == value then v
    else if value != "" then v.(viewType := value, showPlot := true, run := true)
    else v.(viewType := value)
  }

  /** Selecting the same view twice is selecting it once; after a reset,
      selecting any view restarts the plot. */
  lemma ViewTypeSelection(v: View, value: string)
    ensures ChangeViewType(ChangeViewType(v, value), value) == ChangeViewType(v, value)
    ensures ResetViewType(ResetViewType(v)) == ResetViewType(v)
    ensures value != "" ==>
      var r := ChangeViewType(ResetViewType(v), value);
      r.viewType == value && r.run && r.showPlot
  {
  }

  /** `triggerClearPlot`: the flag the trace component watches flips. */
  function TriggerClearPlot(v: View): (r: View)
    ensures r.clearPlot != v.clearPlot
    ensures r.(clearPlot := v.clearPlot) == v
  {
    v.(clearPlot := !v.clearPlot)
  }

  /** Two triggers restore the flag. */
  lemma TriggerClearPlotTwice(v: View)
    ensures TriggerClearPlot(TriggerClearPlot(v)) == v
  {
  }
}

=== FILE: optional.dfy ===
/** An optional value: the model's stand-in for a JavaScript `undefined`. */
module Optional {

  datatype Option<+T> = None | Some(value: T) {

    /** The carried value, or `default` when there is none. */
    function GetOr(default: T): T {
      match this
      case Some(v) => v
      case None => default
    }
  }
}

=== FILE: scenarios.dfy ===
/** Concrete runs of the trace engine and the report handler. */
module Scenarios {
  import opened Optional
  import opened TraceStats
  import opened Traces
  import opened Stream

  function At(i: int, x: int, y: int): Sample {
    Sample(i, x, y, 1, 2, 2)
  }

  function Frame(samples: seq<Sample>): Payload {
    Payload(Some(samples))
  }

  lemma OneSample(smp: Sample)
    ensures Present([smp], smp.objectIndex)
    ensures SamplesFor([smp], smp.objectIndex) == [smp]
    ensures Xs([smp]) == [smp.xMeas] && Ys([smp]) == [smp.yMeas]
  {
    assert [smp][0].objectIndex == smp.objectIndex;
    assert [smp][..0] == [];
  }

  /** A frame holding one sample feeds that sample to its object's slot,
      which then stays active. */
  lemma SingleSampleFrame(slots: seq<Slot>, a: Sample, lin: Linearity, r: seq<Slot>)
    requires |slots| == SlotCount && 0 <= a.objectIndex < SlotCount
    requires r == CaptureTraces(slots, Frame([a]), lin)
    ensures |r| == SlotCount
    ensures r[a.objectIndex] == Feed(Provisional(slots[a.objectIndex]), a.xMeas, a.yMeas)
  {
    OneSample(a);
    CaptureTracesSlot(slots, Frame([a]), lin, a.objectIndex);
  }

  /** An empty frame closes every slot that was active. */
  lemma EmptyFrame(slots: seq<Slot>, lin: Linearity, i: int, r: seq<Slot>)
    requires |slots| == SlotCount && 0 <= i < SlotCount
    requires r == CaptureTraces(slots, Frame([]), lin)
    ensures |r| == SlotCount
    ensures r[i] == Close(Provisional(slots[i]), lin)
  {
    CaptureTracesSlot(slots, Frame([]), lin, i);
  }

  /** Object 0 at (0, 0), then at (10, 0), then absent: the trajectory closes
      with x range 10 and y range 0. */
  lemma HorizontalStroke(lin: Linearity, a: Sample, b: Sample, s1: seq<Slot>, s2: seq<Slot>, s3: seq<Slot>)
    requires a.objectIndex == 0 && a.xMeas == 0 && a.yMeas == 0
    requires b.objectIndex == 0 && b.xMeas == 10 && b.yMeas == 0
    requires s1 == CaptureTraces(ClearPlot(), Frame([a]), lin)
    requires s2 == CaptureTraces(s1, Frame([b]), lin)
    requires s3 == CaptureTraces(s2, Frame([]), lin)
    ensures s2[0].status == Active && s2[0].xs == [0, 10] && s2[0].ys == [0, 0]
    ensures s3[0].status == Idle
    ensures s3[0].stats.rangeX == Some(10) && s3[0].stats.rangeY == Some(0)
    ensures s3[0].stats.linearity == Some(lin([0, 10], [0, 0]))
  {
    SingleSampleFrame(ClearPlot(), a, lin, s1);
    StrokeOpens(s1[0]);
    SingleSampleFrame(s1, b, lin, s2);
    StrokeExtends(s1[0], s2[0]);
    EmptyFrame(s2, lin, 0, s3);
    StrokeCloses(s2[0], s3[0], lin);
  }

  lemma StrokeOpens(t: Slot)
    requires t == Feed(Provisional(FreshSlot), 0, 0)
    ensures t == Slot(Active, [0], [0], Stats(Some(0), Some(0), Some(0), Some(0), None, None, None))
  {
  }

  lemma StrokeExtends(t: Slot, u: Slot)
    requires t == Slot(Active, [0], [0], Stats(Some(0), Some(0), Some(0), Some(0), None, None, None))
    requires u == Feed(Provisional(t), 10, 0)
    ensures u == Slot(Active, [0, 10], [0, 0], Stats(Some(0), Some(10), Some(0), Some(0), None, None, None))
  {
  }

  lemma StrokeCloses(u: Slot, v: Slot, lin: Linearity)
    requires u == Slot(Active, [0, 10], [0, 0], Stats(Some(0), Some(10), Some(0), Some(0), None, None, None))
    requires v == Close(Provisional(u), lin)
    ensures v.status == Idle && v.stats.rangeX == Some(10) && v.stats.rangeY == Some(0)
    ensures v.stats.linearity == Some(lin([0, 10], [0, 0]))
  {
  }

  /** Object 2 present, absent, present again: the slot closes after the
      second frame and the third frame starts a new trace rather than
      extending the old one. */
  lemma ReopenStartsFresh(lin: Linearity, a: Sample, b: Sample, s1: seq<Slot>, s2: seq<Slot>, s3: seq<Slot>)
    requires a.objectIndex == 2 && b.objectIndex == 2
    requires s1 == CaptureTraces(ClearPlot(), Frame([a]), lin)
    requires s2 == CaptureTraces(s1, Frame([]), lin)
    requires s3 == CaptureTraces(s2, Frame([b]), lin)
    ensures s2[2].status == Idle && s2[2].stats.rangeX == Some(0) && s2[2].stats.rangeY == Some(0)
    ensures ZeroWhenVertical(lin) ==> s2[2].stats.linearity == Some(0.0)
    ensures s3[2].status == Active && s3[2].xs == [b.xMeas] && s3[2].ys == [b.yMeas]
    ensures s3[2].stats.rangeX.None? && s3[2].stats.linearity.None?
  {
    SingleSampleFrame(ClearPlot(), a, lin, s1);
    EmptyFrame(s1, lin, 2, s2);
    PointCloses(a, s1[2], s2[2], lin);
    SingleSampleFrame(s2, b, lin, s3);
  }

  lemma PointCloses(a: Sample, t: Slot, u: Slot, lin: Linearity)
    requires t == Feed(Provisional(FreshSlot), a.xMeas, a.yMeas)
    requires u == Close(Provisional(t), lin)
    ensures u.status == Idle && u.stats.rangeX == Some(0) && u.stats.rangeY == Some(0)
    ensures ZeroWhenVertical(lin) ==> u.stats.linearity == Some(0.0)
  {
  }

  /** The first position report of a session: in the trace view slot 0 holds
      the one-point trace (10, 20) with no ranges yet; in the position view the
      next due, running tick renders exactly that sample. */
  lemma FirstReport(lin: Linearity)
    ensures var m := Document(Some(Report("position", Some(Frame([At(0, 10, 20)])))));
      var t := EventHandler(Initial.(viewType := TraceView, run := true), m, lin);
      var p := EventHandler(Initial.(viewType := PositionView, run := true), m, lin);
      && t.slots[0].status == Active && t.slots[0].xs == [10] && t.slots[0].ys == [20]
      && t.slots[0].stats.rangeX.None? && t.slots[0].stats.linearity.None?
      && AnimatePlot(p, true) == Render([At(0, 10, 20)])
  {
    var f := Frame([At(0, 10, 20)]);
    OneSample(At(0, 10, 20));
    CaptureTracesSlot(ClearPlot(), f, lin, 0);
    assert CaptureTraces(ClearPlot(), f, lin)[0] == Feed(FreshSlot, 10, 20);
  }
}

=== FILE: stream.dfy ===
/** The report stream of the touch component: the module-level state it keeps
    (`run`, `viewType`, the trace slots, `eventSource`, `eventData`,
    `eventError`), the report-event handler, opening and closing the
    server-sent event stream, the configuration request, plot start-up, and
    the error and run guards of the render loop. */
module Stream {
  import opened Optional
  import opened TraceStats
  import opened Traces

  const PositionView := "Position Data"
  const TraceView := "Trace Data"

  /** Report kinds the configuration request enables and disables, and the
      report rate it asks for. */
  const ReportTouch := 17
  const ReportDelta := 18
  const ReportRaw := 19
  const ReportFps := 120

  /** The host's `EventSource.readyState` (0, 1 and 2 = `SSE_CLOSED`). */
  datatype ReadyState = Connecting | Open | Closed

  /** An open `EventSource` on the report endpoint, as far as this model sees it. */
  datatype Source = Source(readyState: ReadyState)

  /** The module-level state of the touch component. `connections` counts the
      `EventSource` objects created so far. */
  datatype Engine = Engine(
    run: bool,
    viewType: string,
    slots: seq<Slot>,
    source: Option<Source>,
    eventData: Option<Payload>,
    error: bool,
    connections: nat)

  /** The decoded `report` field of an event: its kind tag and the payload
      (which may be missing). */
  datatype Report = Report(kind: string, payload: Option<Payload>)

  /** One `report` event's data as `JSON.parse` sees it: text that does not
      parse, a falsy document, or an object with or without `report`. */
  datatype Message = Unparsable | Falsy | Document(report: Option<Report>)

  /** The configuration request's body. */
  datatype ReportConfig = ReportConfig(enable: seq<int>, disable: seq<int>, fps: int)

  /** The engine after the first `clearPlot`: nothing running, no stream.
      Before it the slot arrays do not exist yet; the first `newPlot` for a
      view creates them. */
  const Initial := Engine(false, "", ClearPlot(), None, None, false, 0)

  predicate EngineOk(e: Engine) {
    SlotsOk(e.slots)
  }

  /** A position report; any other message is dropped by the handler. */
  predicate IsPosition(m: Message) {
    m.Document? && m.report.Some? && m.report.value.kind == "position"
  }

  /** Object indices of a position report name one of the ten slots. */
  predicate ValidMessage(m: Message) {
    IsPosition(m) && m.report.value.payload.Some? ==> ValidSamples(Positions(m.report.value.payload.value))
  }

  /** `eventHandler`: a position report becomes the latest `eventData` and,
      in the trace view, is fed to `captureTraces`. When the payload itself is
      missing, `captureTraces` fails on its first line, before touching any
      slot, so the slots stay as they were. Object indices are only used, and
      so only need to be in range, in the trace view. */
  function EventHandler(e: Engine, m: Message, lin: Linearity): (r: Engine)
    requires |e.slots| == SlotCount && (e.viewType == TraceView ==> ValidMessage(m))
    ensures !IsPosition(m) ==> r == e
    ensures IsPosition(m) ==> r.eventData == m.report.value.payload
    ensures e.viewType != TraceView ==> r.slots == e.slots
    ensures IsPosition(m) && m.report.value.payload.None? ==> r.slots == e.slots
    ensures IsPosition(m) && e.viewType == TraceView && m.report.value.payload.Some? ==>
      r.slots == CaptureTraces(e.slots, m.report.value.payload.value, lin)
    ensures r.(slots := e.slots, eventData := e.eventData) == e
  {
    if !IsPosition(m) then e
    else
      var payload := m.report.value.payload;
      var e1 := e.(eventData := payload);
      if e.viewType == TraceView && payload.Some? then
        e1.(slots := CaptureTraces(e.slots, payload.value, lin))
      else e1
  }

  /** The handler keeps the slot invariant, whatever it receives. */
  lemma EventHandlerKeepsOk(e: Engine, m: Message, lin: Linearity)
    requires EngineOk(e) && (e.viewType == TraceView ==> ValidMessage(m))
    ensures EngineOk(EventHandler(e, m, lin))
  {
    if IsPosition(m) && e.viewType == TraceView && m.report.value.payload.Some? {
      CaptureTracesKeepsOk(e.slots, m.report.value.payload.value, lin);
    }
  }

  /** `addEvent`: with a handle already present nothing happens; otherwise
      the error flag is cleared and exactly one new stream is opened. */
  function AddEvent(e: Engine): (r: Engine)
    ensures e.source.Some? ==> r == e
    ensures e.source.None? ==>
      && r.source.Some? && !r.error && r.connections == e.connections + 1
      && r.(source := e.source, error := e.error, connections := e.connections) == e
  {
    if e.source.Some? then e
    else e.(error := false, source := Some(Source(Connecting)), connections := e.connections + 1)
  }

  /** `removeEvent` as the source writes it: the handle is closed and cleared
      only when it exists and its ready state is not CLOSED. */
  function RemoveEventAsWritten(e: Engine): (r: Engine)
    ensures e.source.None? || e.source.value.readyState == Closed ==> r == e
    ensures e.source.Some? && e.source.value.readyState != Closed ==> r == e.(source := None)
  {
    if e.source.Some? && e.source.value.readyState != Closed then e.(source := None) else e
  }

  /** `errorHandler` as the source writes it. */
  function ErrorHandlerAsWritten(e: Engine): (r: Engine)
    ensures r.error
    ensures e.source.None? ==> r == e.(error := true)
    ensures e.source.Some? && e.source.value.readyState == Closed ==> r.source == e.source
    ensures e.source.Some? && e.source.value.readyState != Closed ==> r.source.None?
    ensures r.(error := e.error, source := e.source) == e
  {
    RemoveEventAsWritten(e.(error := true))
  }

  /** `removeEvent`, corrected: whatever the ready state, a present handle is
      closed and cleared; with no handle nothing happens. */
  function RemoveEvent(e: Engine): (r: Engine)
    ensures r.source.None?
    ensures e.source.None? ==> r == e
    ensures r.(source := e.source) == e
  {
    e.(source := None)
  }

  /** `errorHandler`, corrected: the error flag is raised and the handle is
      gone, so the next `addEvent` can open a fresh stream. */
  function ErrorHandler(e: Engine): (r: Engine)
    ensures r.error && r.source.None?
    ensures r.(error := e.error, source := e.source) == e
  {
    RemoveEvent(e.(error := true))
  }

  /** The outcome of the configuration request. */
  datatype Outcome = Accepted | Rejected

  /** The body `setReport(disable, enable)` posts: note the parameter
      order, disabled kinds first. */
  function ReportBody(disable: seq<int>, enable: seq<int>): ReportConfig {
    ReportConfig(enable, disable, ReportFps)
  }

  /** What a `setReport` call leaves: the engine, the backend's answer and
      the request body it posted. */
  datatype Posted = Posted(engine: Engine, outcome: Outcome, request: ReportConfig)

  /** `setReport(disable, enable)`, given the backend's answer: the request
      enables `enable` and disables `disable` at 120 reports per second; on
      acceptance the stream is opened (a no-op when a handle exists); a
      rejected request opens nothing and changes nothing; only the stream
      fields ever change. */
  function SetReport(e: Engine, disable: seq<int>, enable: seq<int>, answer: Outcome): (r: Posted)
    ensures r.request.enable == enable && r.request.disable == disable && r.request.fps == ReportFps
    ensures r.outcome == answer
    ensures answer == Rejected ==> r.engine == e
    ensures answer == Accepted ==> r.engine.source.Some?
    ensures answer == Accepted && e.source.Some? ==> r.engine == e
    ensures answer == Accepted && e.source.None? ==>
      !r.engine.error && r.engine.connections == e.connections + 1
    ensures r.engine.(source := e.source, error := e.error, connections := e.connections) == e
  {
    var body := ReportBody(disable, enable);
    match answer
    case Accepted => Posted(AddEvent(e), Accepted, body)
    case Rejected => Posted(e, Rejected, body)
  }

  /** What `newPlot` ends in: the plot hidden (no view selected), the view
      reset requested (the configuration was rejected), or the render loop
      started. */
  datatype Start = Hidden | ResetRequested | Animating

  /** `newPlot` up to its `await`: the engine with the new view recorded
      (and, for a real view, the slots cleared) and the configuration request
      sent, if any. Report events may be handled before the answer comes. */
  datatype Pending = Pending(engine: Engine, request: Option<ReportConfig>)

  /** The first half of `newPlot`, up to the configuration request. */
  function BeginPlot(e: Engine, view: string): (r: Pending)
  {
    var e1 := e.(viewType := view);
    if view == "" then Pending(e1, None)
    else Pending(e1.(slots := ClearPlot()), Some(ReportBody([ReportDelta, ReportRaw], [ReportTouch])))
  }

  /** The second half of `newPlot`, once the backend has answered the
      pending request: the rest of `setReport`, then either the view reset or
      the render loop start. */
  function FinishPlot(p: Pending, answer: Outcome): (r: (Engine, Start))
    requires p.request.Some?
  {
    var posted := SetReport(p.engine, p.request.value.disable, p.request.value.enable, answer);
    if posted.outcome == Rejected then (posted.engine, ResetRequested)
    else (posted.engine.(eventData := None), Animating)
  }

  /** `newPlot` for view `view` when no report arrives while it awaits the
      backend's answer. */
  function NewPlot(e: Engine, view: string, answer: Outcome): (r: (Engine, Start))
  {
    var p := BeginPlot(e, view);
    if p.request.None? then (p.engine, Hidden) else FinishPlot(p, answer)
  }

  /** Starting a plot: an empty view only records it; any other view clears
      the slots; a rejected configuration opens no stream and asks for the
      view to be reset; an accepted one leaves a stream open, no stale
      `eventData`, and the error flag clear whenever a new stream was opened. */
  lemma NewPlotOutcome(e: Engine, view: string, answer: Outcome)
    ensures view == "" ==> BeginPlot(e, view).request.None?
    ensures view != "" ==>
      BeginPlot(e, view).request == Some(ReportConfig([ReportTouch], [ReportDelta, ReportRaw], 120))
    ensures var (r, start) := NewPlot(e, view, answer);
      && r.viewType == view
      && (view == "" <==> start == Hidden)
      && (view == "" ==> r == e.(viewType := view))
      && r.(viewType := e.viewType, slots := e.slots, source := e.source, error := e.error,
            connections := e.connections, eventData := e.eventData) == e
      && (view != "" ==>
            r.slots == ClearPlot() && SlotsOk(r.slots)
            && (forall i :: 0 <= i < |r.slots| ==> r.slots[i].status == Idle))
      && (view != "" && answer == Rejected <==> start == ResetRequested)
      && (start == ResetRequested ==>
            r.source == e.source && r.connections == e.connections && r.error == e.error
            && r.eventData == e.eventData)
      && (start == Animating && e.source.Some? ==>
            r.source == e.source && r.error == e.error && r.connections == e.connections)
      && (start == Animating ==>
            r.source.Some? && r.eventData.None? && (r.connections == e.connections + 1 ==> !r.error))
  {
    ClearPlotOk();
  }

  /** A report that arrives while `newPlot` awaits the configuration answer,
      with a stream from an earlier view still open: in the trace view it is
      captured into the freshly cleared slots, the accepted answer opens no
      new stream, and the capture survives the start of the render loop. */
  lemma ReportDuringPlotStart(e: Engine, m: Message, lin: Linearity)
    requires e.source.Some? && IsPosition(m) && m.report.value.payload.Some? && ValidMessage(m)
    ensures var p := BeginPlot(e, TraceView);
      var e1 := EventHandler(p.engine, m, lin);
      var (r, start) := FinishPlot(p.(engine := e1), Accepted);
      && start == Animating
      && r.source == e.source && r.connections == e.connections
      && r.slots == CaptureTraces(ClearPlot(), m.report.value.payload.value, lin)
      && r.eventData.None?
  {
    ClearPlotOk();
  }

  /** The ticks of `animatePlot`: the view reset (on a stream error, without
      rescheduling), a paused tick, a tick that falls inside the render
      interval, a tick with no report yet, or a render of the latest report's
      positions, as `computePlot` leaves them. */
  datatype Tick = ResetView | Paused | Throttled | NoData | Render(pos: seq<Sample>)

  /** Every tick but the error tick schedules the next one. */
  predicate Reschedules(t: Tick) {
    t != ResetView
  }

  /** `animatePlot`; `due` says whether a render interval has elapsed since
      the last render, which depends on the host clock. */
  function AnimatePlot(e: Engine, due: bool): (t: Tick)
    ensures t == ResetView <==> e.error
    ensures Reschedules(t) <==> !e.error
    ensures t.Render? <==> !e.error && e.run && due && e.eventData.Some?
    ensures t.Render? ==> t.pos == Positions(e.eventData.value)
    ensures !e.error && !e.run ==> t == Paused
  {
    if e.error then ResetView
    else if !e.run then Paused
    else if !due then Throttled
    else if e.eventData.None? then NoData
    else Render(Positions(e.eventData.value))
  }

  // ---------------------------------------------------------------------
  // Lifecycle properties

  /** Opening twice opens once; closing twice closes once. */
  lemma OpenCloseIdempotent(e: Engine)
    ensures AddEvent(AddEvent(e)) == AddEvent(e)
    ensures RemoveEvent(RemoveEvent(e)) == RemoveEvent(e)
    ensures RemoveEventAsWritten(RemoveEventAsWritten(e)) == RemoveEventAsWritten(e)
  {
  }

  /** As written: when the host reports a failed connection it has already
      set the ready state to CLOSED, so `errorHandler` leaves the handle in
      place. Every later `newPlot` then finds a handle, `addEvent` returns
      early without clearing the error flag, and the very next tick resets
      the view again: the widget cannot display data until reloaded. */
  lemma StaleHandleAfterFailedConnection(e: Engine, view: string, answer: Outcome, due: bool)
    requires e.source == Some(Source(Closed))
    ensures var e1 := ErrorHandlerAsWritten(e);
      && e1.error && e1.source == e.source
      && var (e2, _) := NewPlot(e1, view, answer);
      && e2.error && e2.connections == e.connections
      && AnimatePlot(e2, due) == ResetView
  {
  }

  /** Corrected: after any stream error, an accepted configuration for a
      view opens exactly one new stream, the error flag is clear, and the
      render loop keeps running. */
  lemma ErrorThenReopen(e: Engine, view: string, due: bool)
    requires view != ""
    ensures var e1 := ErrorHandler(e);
      && e1.error && e1.source.None?
      && AnimatePlot(e1, due) == ResetView
      && var (e2, start) := NewPlot(e1, view, Accepted);
      && start == Animating
      && !e2.error && e2.source.Some? && e2.connections == e.connections + 1
      && Reschedules(AnimatePlot(e2, due))
  {
  }
}

=== FILE: trace_stats.dfy ===
/** Bounding-box statistics of one object's trajectory: the seven-entry
    `traceStats[i]` array of the touch component, and the reference
    definitions of a trace's extremes that the incremental updates must match. */
module TraceStats {
  import opened Optional

  function Min(a: int, b: int): int { if a <= b then a else b }

  function Max(a: int, b: int): int { if a >= b then a else b }

  /** The smallest coordinate of a non-empty trace. It is defined from the
      back, so that appending one sample is one step of the definition. */
  function SeqMin(s: seq<int>): (m: int)
    requires |s| > 0
    ensures m in s
    ensures forall k :: 0 <= k < |s| ==> m <= s[k]
  {
    if |s| == 1 then s[0]
    else
      var init := s[..|s| - 1];
      assert s == init + [s[|s| - 1]];
      Min(SeqMin(init), s[|s| - 1])
  }

  /** The largest coordinate of a non-empty trace. */
  function SeqMax(s: seq<int>): (m: int)
    requires |s| > 0
    ensures m in s
    ensures forall k :: 0 <= k < |s| ==> s[k] <= m
  {
    if |s| == 1 then s[0]
    else
      var init := s[..|s| - 1];
      assert s == init + [s[|s| - 1]];
      Max(SeqMax(init), s[|s| - 1])
  }

  lemma SeqMinAppend(s: seq<int>, x: int)
    requires |s| > 0
    ensures SeqMin(s + [x]) == Min(SeqMin(s), x)
  {
    assert (s + [x])[..|s|] == s;
  }

  lemma SeqMaxAppend(s: seq<int>, x: int)
    requires |s| > 0
    ensures SeqMax(s + [x]) == Max(SeqMax(s), x)
  {
    assert (s + [x])[..|s|] == s;
  }

  /** Entries 0..6 of `traceStats[i]`: x min, x max, y min, y max, x range,
      y range and linearity. `None` is an entry the source leaves undefined. */
  datatype Stats = Stats(
    xMin: Option<int>, xMax: Option<int>,
    yMin: Option<int>, yMax: Option<int>,
    rangeX: Option<int>, rangeY: Option<int>,
    linearity: Option<real>)

  /** A fresh `Array(7)`: every entry undefined. */
  const Unset := Stats(None, None, None, None, None, None, None)

  /** Running minimum: a sample replaces the entry when the entry is
      undefined or the sample lies strictly below it. */
  function Lower(cur: Option<int>, v: int): Option<int> {
    if cur.None? || v < cur.value then Some(v) else cur
  }

  /** Running maximum: a sample replaces the entry when the entry is
      undefined or the sample lies strictly above it. */
  function Raise(cur: Option<int>, v: int): Option<int> {
    if cur.None? || v > cur.value then Some(v) else cur
  }

  /** Folds one (x, y) sample into entries 0..3, leaving 4..6 alone. */
  function Track(st: Stats, x: int, y: int): (r: Stats)
    ensures r.xMin.Some? && r.xMax.Some? && r.yMin.Some? && r.yMax.Some?
    ensures r.xMin.value <= x <= r.xMax.value && r.yMin.value <= y <= r.yMax.value
    ensures r.rangeX == st.rangeX && r.rangeY == st.rangeY && r.linearity == st.linearity
  {
    st.(xMin := Lower(st.xMin, x), xMax := Raise(st.xMax, x),
        yMin := Lower(st.yMin, y), yMax := Raise(st.yMax, y))
  }

  /** The range written when a trajectory closes: `hi - lo` when both ends
      are defined; otherwise the entry keeps its previous value. */
  function Span(lo: Option<int>, hi: Option<int>, previous: Option<int>): (r: Option<int>)
    ensures lo.Some? && hi.Some? && lo.value <= hi.value ==> r.Some? && r.value >= 0
    ensures !(lo.Some? && hi.Some?) ==> r == previous
  {
    if lo.Some? && hi.Some? then Some(hi.value - lo.value) else previous
  }

  /** Entries 0..3 are exactly the extremes of the trace `xs`/`ys`. */
  predicate BoxOf(st: Stats, xs: seq<int>, ys: seq<int>) {
    && |xs| > 0 && |ys| > 0
    && st.xMin == Some(SeqMin(xs)) && st.xMax == Some(SeqMax(xs))
    && st.yMin == Some(SeqMin(ys)) && st.yMax == Some(SeqMax(ys))
  }

  /** One incremental update keeps entries 0..3 equal to the extremes of the
      trace extended by the sample. */
  lemma TrackExtendsBox(st: Stats, xs: seq<int>, ys: seq<int>, x: int, y: int)
    requires BoxOf(st, xs, ys)
    ensures BoxOf(Track(st, x, y), xs + [x], ys + [y])
  {
    SeqMinAppend(xs, x);
    SeqMaxAppend(xs, x);
    SeqMinAppend(ys, y);
    SeqMaxAppend(ys, y);
  }

  /** Starting from undefined entries, one sample gives the box of a
      one-point trace. */
  lemma TrackStartsBox(x: int, y: int)
    ensures BoxOf(Track(Unset, x, y), [x], [y])
  {
  }
}

=== FILE: traces.dfy ===
/** The trajectory engine of the touch component: ten object slots, each with
    a status, an x/y trace and its statistics, driven once per decoded
    position frame (`captureTraces`) and reset by `clearPlot`. */
module Traces {
  import opened Optional
  import opened TraceStats

  /** The number of tracked objects; every per-object array has this length. */
  const SlotCount := 10

  /** `"*"` idle, `"+"` active, `"-"` closing (only ever seen inside one frame). */
  datatype Status = Idle | Active | Closing

  /** One entry of a position report's `pos` list. */
  datatype Sample = Sample(objectIndex: int, xMeas: int, yMeas: int, z: int, xWidth: int, yWidth: int)

  /** The second element of a position report; `pos` may be absent. */
  datatype Payload = Payload(pos: Option<seq<Sample>>)

  /** Slot `i` gathers `traceStatus[i]`, `xTrace[i]`, `yTrace[i]` and `traceStats[i]`. */
  datatype Slot = Slot(status: Status, xs: seq<int>, ys: seq<int>, stats: Stats)

  /** The linearity of a closed trace. Its floating-point computation is not
      part of this model, so callers supply it. */
  type Linearity = (seq<int>, seq<int>) -> real

  /** What `computeLinearity` gives a trace whose x values all coincide, a
      single point included: the fitted slope is 0/0, no distance then
      exceeds the running maximum, and the result stays 0. */
  ghost predicate ZeroWhenVertical(lin: Linearity) {
    forall xs: seq<int>, ys: seq<int> ::
      |xs| >= 1 && (forall k :: 0 <= k < |xs| ==> xs[k] == xs[0]) ==> lin(xs, ys) == 0.0
  }

  /** A slot as `clearPlot` leaves it. */
  const FreshSlot := Slot(Idle, [], [], Unset)

  /** An absent `pos` is read as an empty list. */
  function Positions(p: Payload): seq<Sample> {
    p.pos.GetOr([])
  }

  /** Every object index of a frame names one of the ten slots. The source
      indexes its arrays with it unchecked. */
  predicate ValidSamples(pos: seq<Sample>) {
    forall k :: 0 <= k < |pos| ==> 0 <= pos[k].objectIndex < SlotCount
  }

  /** Object `i` appears somewhere in the frame. */
  predicate Present(pos: seq<Sample>, i: int) {
    exists k :: 0 <= k < |pos| && pos[k].objectIndex == i
  }

  /** The samples of object `i`, in stream order. */
  function SamplesFor(pos: seq<Sample>, i: int): seq<Sample> {
    if pos == [] then []
    else
      var last := pos[|pos| - 1];
      SamplesFor(pos[..|pos| - 1], i) + (if last.objectIndex == i then [last] else [])
  }

  function Xs(ss: seq<Sample>): seq<int> {
    seq(|ss|, k requires 0 <= k < |ss| => ss[k].xMeas)
  }

  function Ys(ss: seq<Sample>): seq<int> {
    seq(|ss|, k requires 0 <= k < |ss| => ss[k].yMeas)
  }

  /** The part of one of a slot's traces (`trace` is its `xs` or its `ys`)
      that the next sample extends: nothing for an idle slot (the sample starts
      a new trajectory), the whole trace otherwise. */
  function Base(s: Slot, trace: seq<int>): seq<int> {
    if s.status == Idle then [] else trace
  }

  /** One sample for this slot: an idle slot restarts its trace at the sample
      with undefined statistics, any other slot appends; either way the slot
      becomes active and the running extremes take in the sample. */
  function Feed(s: Slot, x: int, y: int): Slot {
    var restart := s.status == Idle;
    var st := if restart then Unset else s.stats;
    Slot(Active,
         if restart then [x] else s.xs + [x],
         if restart then [y] else s.ys + [y],
         Track(st, x, y))
  }

  /** A sequence of samples for one slot, fed in order. */
  function FeedAll(s: Slot, ss: seq<Sample>): Slot {
    if ss == [] then s
    else
      var last := ss[|ss| - 1];
      Feed(FeedAll(s, ss[..|ss| - 1]), last.xMeas, last.yMeas)
  }

  /** The whole frame's samples, in stream order, each updating its own slot. */
  function ApplySamples(slots: seq<Slot>, pos: seq<Sample>): (r: seq<Slot>)
    requires ValidSamples(pos) && |slots| == SlotCount
    ensures |r| == SlotCount
  {
    if pos == [] then slots
    else
      var last := pos[|pos| - 1];
      var prev := ApplySamples(slots, pos[..|pos| - 1]);
      prev[last.objectIndex := Feed(prev[last.objectIndex], last.xMeas, last.yMeas)]
  }

  function Provisional(s: Slot): Slot {
    if s.status == Active then s.(status := Closing) else s
  }

  /** First pass of a frame: every active slot is provisionally closing. */
  function MarkClosing(slots: seq<Slot>): (r: seq<Slot>)
    ensures |r| == |slots|
  {
    seq(|slots|, i requires 0 <= i < |slots| => Provisional(slots[i]))
  }

  /** Closing one slot: it returns to idle, records its x and y ranges when
      the matching extremes are defined, and records its linearity. */
  function Close(s: Slot, lin: Linearity): Slot {
    if s.status == Closing then
      s.(status := Idle,
         stats := s.stats.(rangeX := Span(s.stats.xMin, s.stats.xMax, s.stats.rangeX),
                           rangeY := Span(s.stats.yMin, s.stats.yMax, s.stats.rangeY),
                           linearity := Some(lin(s.xs, s.ys))))
    else s
  }

  /** Last pass of a frame: every slot still closing is closed. */
  function Finalize(slots: seq<Slot>, lin: Linearity): (r: seq<Slot>)
    ensures |r| == |slots|
  {
    seq(|slots|, i requires 0 <= i < |slots| => Close(slots[i], lin))
  }

  /** `captureTraces`: one position frame applied to the ten slots. */
  function CaptureTraces(slots: seq<Slot>, p: Payload, lin: Linearity): (r: seq<Slot>)
    requires |slots| == SlotCount && ValidSamples(Positions(p))
    ensures |r| == SlotCount
  {
    Finalize(ApplySamples(MarkClosing(slots), Positions(p)), lin)
  }

  /** `clearPlot`: all ten slots idle, with empty traces and undefined statistics. */
  function ClearPlot(): (r: seq<Slot>)
    ensures |r| == SlotCount
    ensures forall i :: 0 <= i < |r| ==> r[i].status == Idle && r[i].xs == [] && r[i].ys == [] && r[i].stats == Unset
  {
    seq(SlotCount, i => FreshSlot)
  }

  // ---------------------------------------------------------------------
  // The slot invariant

  /** What holds of every slot between frames: the traces have equal length;
      no slot is left closing; an active slot has a non-empty trace whose
      extremes are entries 0..3 and has no ranges or linearity yet; an idle
      slot with a trace is a closed trajectory whose ranges are the spans of
      its extremes; an idle slot without a trace has undefined statistics. */
  predicate SlotOk(s: Slot) {
    && |s.xs| == |s.ys|
    && s.status != Closing
    && (s.status == Active ==>
          BoxOf(s.stats, s.xs, s.ys)
          && s.stats.rangeX.None? && s.stats.rangeY.None? && s.stats.linearity.None?)
    && (s.status == Idle && |s.xs| > 0 ==>
          BoxOf(s.stats, s.xs, s.ys)
          && s.stats.rangeX == Some(SeqMax(s.xs) - SeqMin(s.xs))
          && s.stats.rangeY == Some(SeqMax(s.ys) - SeqMin(s.ys))
          && s.stats.linearity.Some?)
    && (|s.xs| == 0 ==> s.status == Idle && s.stats == Unset)
  }

  predicate SlotsOk(slots: seq<Slot>) {
    |slots| == SlotCount && forall i :: 0 <= i < |slots| ==> SlotOk(slots[i])
  }

  /** The slots `clearPlot` produces satisfy the invariant, whatever came before. */
  lemma ClearPlotOk()
    ensures SlotsOk(ClearPlot())
  {
  }

  // ---------------------------------------------------------------------
  // One slot, one frame

  lemma XsAppend(ss: seq<Sample>)
    requires ss != []
    ensures Xs(ss) == Xs(ss[..|ss| - 1]) + [ss[|ss| - 1].xMeas]
    ensures Ys(ss) == Ys(ss[..|ss| - 1]) + [ss[|ss| - 1].yMeas]
  {
  }

  /** One sample for a slot: the slot becomes active; each trace is its base
      (empty for an idle slot) followed by the sample; the extremes match the
      new trace whenever they matched the old one or the slot was idle; the
      range and linearity entries are undefined for a restarted trajectory and
      kept for a continued one. */
  lemma FeedShape(s: Slot, x: int, y: int)
    ensures var r := Feed(s, x, y);
      && r.status == Active
      && r.xs == Base(s, s.xs) + [x]
      && r.ys == Base(s, s.ys) + [y]
      && (s.status == Idle || BoxOf(s.stats, s.xs, s.ys) ==> BoxOf(r.stats, r.xs, r.ys))
      && (s.status == Idle ==> r.stats.rangeX.None? && r.stats.rangeY.None? && r.stats.linearity.None?)
      && (s.status != Idle ==>
            r.stats.rangeX == s.stats.rangeX && r.stats.rangeY == s.stats.rangeY
            && r.stats.linearity == s.stats.linearity)
  {
    if s.status == Idle {
      TrackStartsBox(x, y);
    } else if BoxOf(s.stats, s.xs, s.ys) {
      TrackExtendsBox(s.stats, s.xs, s.ys, x, y);
    }
  }

  /** Feeding a slot its samples of one frame: with no samples nothing
      changes; otherwise the slot is active, each trace is its base extended
      by exactly the samples' coordinates, in order. */
  lemma {:induction false} FeedAllTrace(s: Slot, ss: seq<Sample>)
    ensures ss == [] ==> FeedAll(s, ss) == s
    ensures ss != [] ==>
      var r := FeedAll(s, ss);
      && r.status == Active
      && r.xs == Base(s, s.xs) + Xs(ss)
      && r.ys == Base(s, s.ys) + Ys(ss)
      && |r.xs| == |Base(s, s.xs)| + |ss|
  {
    if ss != [] {
      var init := ss[..|ss| - 1];
      var last := ss[|ss| - 1];
      XsAppend(ss);
      FeedShape(FeedAll(s, init), last.xMeas, last.yMeas);
      if init != [] {
        FeedAllTrace(s, init);
      }
    }
  }

  /** Over a non-empty run of samples the extremes stay those of the trace,
      provided they were (or the slot was idle); ranges and linearity are
      cleared by a restart and kept by a continuation. */
  lemma {:induction false} FeedAllStats(s: Slot, ss: seq<Sample>)
    requires ss != []
    ensures var r := FeedAll(s, ss);
      && (s.status == Idle || BoxOf(s.stats, s.xs, s.ys) ==> BoxOf(r.stats, r.xs, r.ys))
      && (s.status == Idle ==> r.stats.rangeX.None? && r.stats.rangeY.None? && r.stats.linearity.None?)
      && (s.status != Idle ==>
            r.stats.rangeX == s.stats.rangeX && r.stats.rangeY == s.stats.rangeY
            && r.stats.linearity == s.stats.linearity)
  {
    var init := ss[..|ss| - 1];
    var last := ss[|ss| - 1];
    FeedShape(FeedAll(s, init), last.xMeas, last.yMeas);
    if init != [] {
      FeedAllStats(s, init);
      FeedAllTrace(s, init);
    }
  }

  lemma SamplesForAppend(pos: seq<Sample>, i: int)
    requires pos != []
    ensures SamplesFor(pos, i) ==
      SamplesFor(pos[..|pos| - 1], i) + (if pos[|pos| - 1].objectIndex == i then [pos[|pos| - 1]] else [])
  {
  }

  lemma FeedAllAppend(s: Slot, ss: seq<Sample>, x: Sample)
    ensures FeedAll(s, ss + [x]) == Feed(FeedAll(s, ss), x.xMeas, x.yMeas)
  {
    assert (ss + [x])[..|ss|] == ss;
  }

  /** The frame's effect on slot `i` depends only on the samples of object
      `i`, fed in stream order. */
  lemma {:induction false} ApplySamplesPerSlot(slots: seq<Slot>, pos: seq<Sample>, i: int)
    requires ValidSamples(pos) && |slots| == SlotCount && 0 <= i < SlotCount
    ensures ApplySamples(slots, pos)[i] == FeedAll(slots[i], SamplesFor(pos, i))
  {
    if pos != [] {
      var init := pos[..|pos| - 1];
      var last := pos[|pos| - 1];
      assert ValidSamples(init);
      ApplySamplesPerSlot(slots, init, i);
      SamplesForAppend(pos, i);
      if last.objectIndex == i {
        FeedAllAppend(slots[i], SamplesFor(init, i), last);
      } else {
        assert SamplesFor(pos, i) == SamplesFor(init, i);
      }
    }
  }

  /** Object `i` has samples in the frame exactly when it is present, and each
      sample of `SamplesFor` belongs to object `i`. */
  lemma {:induction false} SamplesForPresent(pos: seq<Sample>, i: int)
    ensures SamplesFor(pos, i) != [] <==> Present(pos, i)
    ensures forall k :: 0 <= k < |SamplesFor(pos, i)| ==> SamplesFor(pos, i)[k].objectIndex == i
  {
    if pos != [] {
      var init := pos[..|pos| - 1];
      SamplesForPresent(init, i);
      SamplesForAppend(pos, i);
      if Present(pos, i) && pos[|pos| - 1].objectIndex != i {
        var k :| 0 <= k < |pos| && pos[k].objectIndex == i;
        assert init[k].objectIndex == i;
      }
      if Present(init, i) {
        var k :| 0 <= k < |init| && init[k].objectIndex == i;
        assert pos[k].objectIndex == i;
      }
    }
  }

  // ---------------------------------------------------------------------
  // One frame, all slots

  /** Slot `i` after a frame: provisionally closed, fed the samples of object
      `i`, then closed if nothing reopened it. */
  lemma CaptureTracesSlot(slots: seq<Slot>, p: Payload, lin: Linearity, i: int)
    requires |slots| == SlotCount && ValidSamples(Positions(p)) && 0 <= i < SlotCount
    ensures CaptureTraces(slots, p, lin)[i] ==
      Close(FeedAll(MarkClosing(slots)[i], SamplesFor(Positions(p), i)), lin)
  {
    ApplySamplesPerSlot(MarkClosing(slots), Positions(p), i);
  }

  /** Statuses after a frame: a slot is active exactly when its object is in
      the frame; no slot is left closing; so every slot that was active and
      is absent is idle; and an idle slot absent from the frame is untouched. */
  lemma CaptureTracesStatus(slots: seq<Slot>, p: Payload, lin: Linearity)
    requires |slots| == SlotCount && ValidSamples(Positions(p))
    ensures var r := CaptureTraces(slots, p, lin);
      forall i :: 0 <= i < SlotCount ==>
        && (r[i].status == Active <==> Present(Positions(p), i))
        && r[i].status != Closing
        && (slots[i].status == Active && !Present(Positions(p), i) ==> r[i].status == Idle)
        && (slots[i].status == Idle && !Present(Positions(p), i) ==> r[i] == slots[i])
  {
    var r := CaptureTraces(slots, p, lin);
    forall i | 0 <= i < SlotCount
      ensures && (r[i].status == Active <==> Present(Positions(p), i))
              && r[i].status != Closing
              && (slots[i].status == Idle && !Present(Positions(p), i) ==> r[i] == slots[i])
    {
      var ss := SamplesFor(Positions(p), i);
      CaptureTracesSlot(slots, p, lin, i);
      SamplesForPresent(Positions(p), i);
      FeedAllTrace(MarkClosing(slots)[i], ss);
    }
  }

  /** Traces after a frame, for an object present in it: the trace is the
      slot's base (empty when the slot was idle, the old trace otherwise)
      followed by exactly the coordinates of that object's samples in stream
      order, so it grows by one per occurrence; a restarted slot has its range
      and linearity entries undefined, a continued one keeps them. */
  lemma CaptureTracesTraces(slots: seq<Slot>, p: Payload, lin: Linearity, i: int)
    requires |slots| == SlotCount && ValidSamples(Positions(p)) && 0 <= i < SlotCount
    requires Present(Positions(p), i)
    ensures var r := CaptureTraces(slots, p, lin);
      var ss := SamplesFor(Positions(p), i);
      && (forall k :: 0 <= k < |ss| ==> ss[k].objectIndex == i)
      && r[i].xs == Base(slots[i], slots[i].xs) + Xs(ss)
      && r[i].ys == Base(slots[i], slots[i].ys) + Ys(ss)
      && |r[i].xs| == |Base(slots[i], slots[i].xs)| + |ss|
      && (slots[i].status == Idle ==>
            r[i].stats.rangeX.None? && r[i].stats.rangeY.None? && r[i].stats.linearity.None?)
      && (slots[i].status != Idle ==>
            r[i].stats.rangeX == slots[i].stats.rangeX && r[i].stats.rangeY == slots[i].stats.rangeY
            && r[i].stats.linearity == slots[i].stats.linearity)
  {
    var ss := SamplesFor(Positions(p), i);
    var m := MarkClosing(slots)[i];
    CaptureTracesSlot(slots, p, lin, i);
    SamplesForPresent(Positions(p), i);
    FeedAllTrace(m, ss);
    FeedAllStats(m, ss);
  }

  /** A slot that was active and is absent from the frame closes: its trace
      and extremes stay, its x and y ranges become the (non-negative) spans
      of those extremes, and its linearity is that of the finished trace. */
  lemma CaptureTracesCloses(slots: seq<Slot>, p: Payload, lin: Linearity, i: int)
    requires |slots| == SlotCount && ValidSamples(Positions(p)) && 0 <= i < SlotCount
    requires SlotOk(slots[i]) && slots[i].status == Active && !Present(Positions(p), i)
    ensures var r := CaptureTraces(slots, p, lin);
      var s := slots[i];
      && r[i].status == Idle
      && r[i].xs == s.xs && r[i].ys == s.ys
      && r[i].stats.xMin == s.stats.xMin && r[i].stats.xMax == s.stats.xMax
      && r[i].stats.yMin == s.stats.yMin && r[i].stats.yMax == s.stats.yMax
      && r[i].stats.rangeX == Some(SeqMax(s.xs) - SeqMin(s.xs)) && r[i].stats.rangeX.value >= 0
      && r[i].stats.rangeY == Some(SeqMax(s.ys) - SeqMin(s.ys)) && r[i].stats.rangeY.value >= 0
      && r[i].stats.linearity == Some(lin(s.xs, s.ys))
  {
    CaptureTracesSlot(slots, p, lin, i);
    SamplesForPresent(Positions(p), i);
    FeedAllTrace(MarkClosing(slots)[i], SamplesFor(Positions(p), i));
  }

  /** A frame without `pos` is the empty frame: it opens nothing, closes every
      active slot and leaves idle slots as they were. */
  lemma CaptureTracesNoPos(slots: seq<Slot>, lin: Linearity)
    requires |slots| == SlotCount
    ensures CaptureTraces(slots, Payload(None), lin) == CaptureTraces(slots, Payload(Some([])), lin)
    ensures var r := CaptureTraces(slots, Payload(None), lin);
      forall i :: 0 <= i < SlotCount ==>
        && r[i].status == Idle
        && (slots[i].status == Idle ==> r[i] == slots[i])
  {
    CaptureTracesStatus(slots, Payload(None), lin);
  }

  /** One slot through one frame keeps the slot invariant. */
  lemma SlotStepOk(s: Slot, ss: seq<Sample>, lin: Linearity)
    requires SlotOk(s)
    ensures SlotOk(Close(FeedAll(Provisional(s), ss), lin))
  {
    var m := Provisional(s);
    FeedAllTrace(m, ss);
    if ss != [] {
      FeedAllStats(m, ss);
      assert |Xs(ss)| == |Ys(ss)|;
    }
  }

  /** Every frame keeps the slot invariant. */
  lemma CaptureTracesKeepsOk(slots: seq<Slot>, p: Payload, lin: Linearity)
    requires SlotsOk(slots) && ValidSamples(Positions(p))
    ensures SlotsOk(CaptureTraces(slots, p, lin))
  {
    var r := CaptureTraces(slots, p, lin);
    forall i | 0 <= i < SlotCount
      ensures SlotOk(r[i])
    {
      CaptureTracesSlot(slots, p, lin, i);
      SlotStepOk(slots[i], SamplesFor(Positions(p), i), lin);
    }
  }
}
